=== FILE: README.md ===
# Atlassian MCP server: configuration check and dependency installer, in Dafny

This project models two small command-line helpers of the MCP Atlassian
server repository and proves properties of the model.

* The **simple test script** (`_simple_test.py`) reads four settings for each
  of two services (Jira and Confluence): URL, username, API token and
  personal token. It resolves them into a configuration in which each service
  with a URL gets an authentication method, chosen by a fixed precedence:
  API token first, then personal token. It then runs four checks in order:
  module imports, configuration, API connectivity and the server's tool
  listing. It exits 0 exactly when every check that ran passed.
* The **dependency installer** (`install_dependencies.py`) runs `uv sync` when
  uv is available. If uv is missing or the sync fails, it falls back to pip and
  installs a fixed, ordered list of six packages one at a time.

Everything outside the scripts is an oracle supplied as a value:

* the environment is an immutable snapshot (`Settings.Environment`);
* which modules import is a function `Module -> bool`;
* what each service probe comes to is a function `Service -> ProbeOutcome`;
* what the server's tool listing returns is a `ToolListing`;
* the exit status of each uv and pip subprocess is carried by a
  `Installer.Toolchain`.

Modules:

* `Common` holds `Option` and `All`. `All` is the one conjunction fold behind
  every "start at `True`, clear on failure" flag in both scripts.
* `Settings` holds the environment snapshot and Python truthiness of a
  variable. Unset and empty are the same.
* `Resolver` holds `check_environment`, an independent statement of the
  precedence rule, and `test_configuration`.
* `Stages` holds the import, connectivity and tool-listing checks.
* `Pipeline` holds `run_tests` and the exit code.
* `Installer` holds the subprocess wrappers, the pip fallback and the
  installer's `main`.

The model follows the code:

* When the import check fails, `run_tests` returns `False` at once
  (`_simple_test.py:266-269`) and records nothing for the later stages.
* Connectivity is a single stage (`_simple_test.py:140-198`). Its per-service
  checks are folded into one flag.
* The connectivity stage decides whether to probe a service from its URL
  variable alone (`_simple_test.py:156`, `177`). When a service has a URL but
  no authentication, the client reports that, and the model records it as an
  ordinary failed probe (`AuthNotConfigured`).
* The installer's exit status does not reflect the outcome (see Findings).

## Model

| member | source | states |
|---|---|---|
| Resolver.ResolveService | _simple_test.py:44-59 | A service has no entry exactly when its URL is unset or empty. Otherwise the entry keeps the URL. With username and API token both set, the method is the API token and the username is stored, even if a personal token is also set. Without those, a personal token gives the personal-token method and no username. With neither, the entry exists with no method. |
| Resolver.FirstSatisfied | _simple_test.py:55-59 | Gives the first strategy in an order whose required credentials are all set, with every earlier strategy unsatisfied. Gives none exactly when no strategy in the order is satisfied. |
| Resolver.FirstSatisfiedPastHead | _simple_test.py:55-59 | If the head strategy is unsatisfied, the first satisfied strategy of the rest is the first satisfied strategy of the whole order. |
| Resolver.ResolveFollowsPrecedence | _simple_test.py:50-59 | For a service with a URL, the resolved method equals the first satisfied strategy in the order API token, then personal token. This is the independent precedence rule. |
| Resolver.CheckEnvironment | _simple_test.py:40-78 | The configuration has an entry for a service exactly when that service's URL is truthy. Each entry is the resolution of that service's own four settings. |
| Resolver.ResolvedIndependently | _simple_test.py:44-76 | Changing one service's settings cannot add, remove or alter the other service's entry. |
| Resolver.TestConfiguration | _simple_test.py:107-138 | Fails exactly when the configuration is empty or some present service has no authentication method. |
| Resolver.AllHaveAuth | _simple_test.py:118-138 | Every service in the check order has an authentication method exactly when every service with an entry has one, because the check order covers every service. |
| Resolver.ConfigurationStageSpec | _simple_test.py:107-138 | The configuration stage passes exactly when at least one service has a URL and every service with a URL satisfies some strategy. |
| Stages.TestBasicImports | _simple_test.py:80-105 | Passes exactly when the Jira config, Confluence config and main server modules all import. |
| Stages.ProbeServices | _simple_test.py:155-196 | Probes each listed service whose URL is truthy and no other. Each check records that service's own probe outcome. |
| Stages.TestApiConnectivity | _simple_test.py:140-198 | If the client modules fail to import, nothing is probed and the stage fails. Otherwise each service with a URL is probed exactly once, Jira before Confluence, and no other service is probed. Each check carries that service's own outcome, so a Jira failure does not stop or change the Confluence check. The stage passes exactly when every probed service listed successfully, so a raised exception or missing authentication counts as a failure. |
| Stages.TestMcpServer | _simple_test.py:200-222 | The tool-listing stage fails when the tool listing raises or the server module cannot be imported. It passes when the module imports and the listing returns. |
| Pipeline.Planned | _simple_test.py:265-286 | The planned stages start with imports and configuration. The API stage is planned exactly when `--skip-api` is off, and the server stage exactly when `--skip-mcp` is off. Declaration order is kept. |
| Pipeline.RunTests | _simple_test.py:261-294 | If the import check fails, only that failed record exists and the result is false. Otherwise every planned stage runs, in order, with its own outcome. The result is the conjunction of the records that ran. |
| Pipeline.ExitCode | _simple_test.py:298 | The exit code is 0 or 1, and it is 0 exactly on success. |
| Pipeline.SimpleTestMain | _simple_test.py:296-298 | The script exits 0 exactly when the import check passes and every planned stage passes. |
| Pipeline.ConfigurationFailureIsNotFatal | _simple_test.py:271-286 | After the imports pass, a failed configuration check makes the run fail. The connectivity and tool-listing stages still run unless skipped. |
| Pipeline.SkippingIsMonotone | _simple_test.py:276-286 | Skipping more stages can turn a failing run into a passing one, never the reverse. |
| Pipeline.StagewiseExitCode | _simple_test.py:261-298 | The exit code is 0 exactly when the import and configuration checks pass and each stage left in by the flags passes. |
| Pipeline.ExitCodeSpec | _simple_test.py:40-298 | The exit code is 0 exactly when all of the following hold: the imports succeed; some service has a URL; every such service satisfies a strategy; unless skipped, the client modules import and every service with a URL lists successfully; and unless skipped, the server module imports and lists its tools. |
| Installer.RunChecked | install_dependencies.py:17-22 | A checked subprocess call returns only on exit status 0. A non-zero status raises `CalledProcessError`, a missing executable raises `FileNotFoundError`, and any other start failure raises its own `OSError`. |
| Installer.InstallPackage | install_dependencies.py:13-28 | Never raises for a pip run that started, and returns true exactly on exit status 0. A pip that cannot start raises, because only `CalledProcessError` is caught. |
| Installer.InstallWithUv | install_dependencies.py:45-60 | Never raises when uv starts, and returns true exactly when `uv sync` exits 0. A missing or unstartable uv binary raises, because only `CalledProcessError` is caught. |
| Installer.CheckUvAvailable | install_dependencies.py:30-43 | Reports uv available exactly when `uv --version` starts and exits 0. A non-zero status and a missing binary both give false. It raises exactly when uv exists but cannot be started, such as a `PermissionError`, because that is the one case its `except` does not list. |
| Installer.InstallEach | install_dependencies.py:74-76 | Produces exactly one outcome per package, in list order. Each outcome is success exactly when pip exited 0 for that package, and earlier failures do not affect it. |
| Installer.InstallMinimalDeps | install_dependencies.py:62-78 | A pip fallback run that attempts the six required packages once each, in the fixed order. Each outcome is that package's own pip result, and the run succeeds exactly when pip succeeded for every one. |
| Installer.InstallerMain | install_dependencies.py:80-106 | Ends in an exception exactly when uv exists but cannot be started. The exception comes from `check_uv_available`, and pip never runs in that case. uv is used, and pip never runs, exactly when uv runs, answers `--version` with 0, and `uv sync` succeeds. Otherwise pip is asked for the six packages in order, and the fallback succeeds exactly when all six install. |
| Installer.OneFailureIsIsolated | install_dependencies.py:73-78 | Suppose uv is missing, or runs but does not sync, and only "pydantic" fails. Then the run reports the other five as installed and the fallback as failed. |
| Installer.InstallerExitStatusAsWritten | install_dependencies.py:80-109 | As written, the exit status is 1 only when an exception escapes `main`. That happens exactly when uv exists but cannot be started. In every other case the status is 0, whether or not the dependencies were installed. |
| Installer.ExitStatusHidesFailure | install_dependencies.py:97-109 | A failed fallback, where uv is absent and pip fails on "pydantic", still exits 0 as written. |
| Installer.InstallerExitStatus | install_dependencies.py:97-106 | Corrected: the exit status is 0 exactly when uv synced, or when no exception ended `main` and every required package installed with pip. Otherwise it is 1. |

## Left out

- `_manual_test_debug.py` is not part of this model. It is interactive dispatch that starts the server and calls live service APIs.
- The service clients (`JiraConfig.from_env`, `is_auth_configured`, `JiraFetcher`, `ConfluenceFetcher`) and `main_mcp.get_tools` live in the repository's `mcp_atlassian` package, outside the two scripts, and call the live services, so they are oracles here.
- The project count, the sample project or space, and the first five tool names are only printed. `ProbeOutcome.Listed` keeps a count, but nothing depends on it. A Confluence result that is not a dictionary counts as zero spaces and still passes. The model covers this as `Listed(0)`.
- Stages.ProbeServices: for an arbitrary service list, it states which services are probed but not their order. The exact list for the script's two services is stated by `Stages.TestApiConnectivity`.
- Printing, logging setup, `print_recommendations`, argparse, `load_dotenv` and the env-file warning are left out. The environment is a snapshot taken after loading.
- The `pyproject.toml` presence warning in the installer is left out, because it only prints.
- `KeyboardInterrupt` and the catch-all `except` around `asyncio.run` (`_simple_test.py:299-307`) are left out. Both exit with status 1.
- `test_basic_imports` and the import block of `test_api_connectivity` catch only `ImportError`. The model treats any exception raised while importing as a failed import. For the basic imports this gives the same result: the run fails with exit status 1 and nothing else runs. For the connectivity imports the exit status is the same, 1. But in the source the exception escapes `run_tests` and the tool-listing stage never runs, while `Pipeline.RunTests` records it as run.
- Asyncio suspension is left out. The stages run strictly one after another.
- pip runs under the interpreter that runs the installer, so the model assumes it always starts. Only its exit status varies. A pip that cannot be started would make `install_package` raise and end the pip loop early. The model does not represent that case.
- The state of uv (missing, present but unstartable, or runnable) is fixed for the whole installer run. A uv binary that disappears or changes between `--version` and `sync` would make `install_with_uv` raise out of `main`. The model does not represent that case.
- Start failures other than a missing executable are modelled as one `OtherOSError`, for example a `PermissionError` for a non-executable `uv`. Which `OSError` subclass is raised, and the traceback, are not modelled.

## Findings

| source | as written | input that shows it | evidently intended | confidence | as-written member | corrected member |
|---|---|---|---|---|---|---|
| install_dependencies.py:97-109 | `main` returns `None` on every path that does not raise and is called without `sys.exit`, so the process exits 0 even after printing that dependencies failed to install | uv not on the path, pip exits 1 for "pydantic" | exit status 1 when neither uv nor the full pip fallback succeeded, matching the failure message and the test script's own `sys.exit` convention | medium, not executed | Installer.InstallerExitStatusAsWritten (shown by Installer.ExitStatusHidesFailure) | Installer.InstallerExitStatus |

=== FILE: common.dfy ===
/** Small shared vocabulary: an optional value and the one conjunction fold
    that every "success = True ... success = False" aggregation in the
    modelled scripts reduces to. */
module Common {

  /** A value that may be missing, like a Python `None`. */
  datatype Option<+T> = None | Some(value: T)

  /** Conjunction of `p` over `xs`, evaluated left to right.  Each of the
      scripts' aggregation loops starts from `True` and turns the flag off on
      the first (or any) failing element; either way the final flag is this. */
  function All<T>(xs: seq<T>, p: T -> bool): (r: bool)
    ensures r <==> forall i :: 0 <= i < |xs| ==> p(xs[i])
    ensures r ==> forall x :: x in xs ==> p(x)
    ensures !r ==> exists i :: 0 <= i < |xs| && !p(xs[i])
  {
    if xs == [] then true
    else p(xs[0]) && All(xs[1..], p)
  }
}

=== FILE: installer.dfy ===
/** The dependency installer: try `uv sync`, and if uv is missing or the sync
    fails, install a fixed package list with pip one package at a time. */
module Installer {
  import opened Common

  /** How one `subprocess.run` call ends: the program ran and exited with a
      status, the executable was not found, or starting it failed with some
      other `OSError` (a `PermissionError` for a file that is not executable,
      for instance). */
  datatype ProcessOutcome = Exited(code: int) | ExecutableMissing | StartFailed

  /** The exceptions modelled here for a `subprocess.run(..., check=True)` call. */
  datatype Exception = CalledProcessError(returncode: int) | FileNotFoundError | OtherOSError

  /** A Python call that either returns a value or raises. */
  datatype Call<T> = Returned(value: T) | Threw(exc: Exception)

  /** `subprocess.run(..., check=True)`: a non-zero exit status raises
      `CalledProcessError`, a missing executable `FileNotFoundError`, any
      other start failure its own `OSError`. */
  function RunChecked(o: ProcessOutcome): (r: Call<()>)
    ensures r.Returned? <==> o == Exited(0)
    ensures r.Threw? && r.exc.FileNotFoundError? <==> o.ExecutableMissing?
    ensures r.Threw? && r.exc.OtherOSError? <==> o.StartFailed?
  {
    match o
    case Exited(code) => if code == 0 then Returned(()) else Threw(CalledProcessError(code))
    case ExecutableMissing => Threw(FileNotFoundError)
    case StartFailed => Threw(OtherOSError)
  }

  /** `install_package` and `install_with_uv` share one shape: only
      `CalledProcessError` is caught and turned into `False`. */
  function CatchingCalledProcessError(o: ProcessOutcome): (r: Call<bool>)
    ensures o.Exited? ==> r == Returned(o.code == 0)
    ensures o.ExecutableMissing? ==> r == Threw(FileNotFoundError)
    ensures o.StartFailed? ==> r == Threw(OtherOSError)
  {
    match RunChecked(o)
    case Returned(_) => Returned(true)
    case Threw(CalledProcessError(_)) => Returned(false)
    case Threw(e) => Threw(e)
  }

  /** `install_package`: `True` exactly when pip exits with status 0; a pip
      that cannot be started raises. */
  function InstallPackage(o: ProcessOutcome): (r: Call<bool>)
    ensures o.Exited? ==> r == Returned(o.code == 0)
    ensures o.ExecutableMissing? ==> r == Threw(FileNotFoundError)
    ensures o.StartFailed? ==> r == Threw(OtherOSError)
  {
    CatchingCalledProcessError(o)
  }

  /** `install_with_uv`: `True` exactly when `uv sync` exits with status 0; a
      uv that cannot be started raises. */
  function InstallWithUv(o: ProcessOutcome): (r: Call<bool>)
    ensures o.Exited? ==> r == Returned(o.code == 0)
    ensures o.ExecutableMissing? ==> r == Threw(FileNotFoundError)
    ensures o.StartFailed? ==> r == Threw(OtherOSError)
  {
    CatchingCalledProcessError(o)
  }

  /** `check_uv_available`: catches `CalledProcessError` and
      `FileNotFoundError` only.  It reports uv available exactly when
      `uv --version` runs and exits with 0, and raises exactly when uv exists
      but cannot be started. */
  function CheckUvAvailable(o: ProcessOutcome): (r: Call<bool>)
    ensures r == Returned(true) <==> o == Exited(0)
    ensures r.Threw? <==> o.StartFailed?
    ensures r.Threw? ==> r.exc == OtherOSError
  {
    match RunChecked(o)
    case Returned(_) => Returned(true)
    case Threw(CalledProcessError(_)) => Returned(false)
    case Threw(FileNotFoundError) => Returned(false)
    case Threw(e) => Threw(e)
  }

  /** The pip fallback list, in installation order. */
  const RequiredPackages: seq<string> :=
    ["python-dotenv", "click", "requests", "pydantic", "atlassian-python-api", "mcp"]

  /** The state of the `uv` command for a whole installer run: not on the
      path, on the path but impossible to start, or runnable. */
  datatype UvBinary = UvMissing | UvUnrunnable | UvRunnable

  /** The tools as seen from one installer run.  The state of uv does not
      change during the run; pip runs under the interpreter executing the
      installer, so it always starts and only its exit status varies. */
  datatype Toolchain = Toolchain(
    uv: UvBinary,
    uvVersionExit: int,
    uvSyncExit: int,
    pipExit: string -> int)

  function UvCall(t: Toolchain, exit: int): ProcessOutcome
  {
    match t.uv
    case UvMissing => ExecutableMissing
    case UvUnrunnable => StartFailed
    case UvRunnable => Exited(exit)
  }

  function PipCall(t: Toolchain, package: string): ProcessOutcome
  {
    Exited(t.pipExit(package))
  }

  /** What the pip fallback records for one package. */
  datatype InstallOutcome = InstallOutcome(package: string, succeeded: bool)

  predicate Succeeded(o: InstallOutcome)
  {
    o.succeeded
  }

  /** Installs `packages` one at a time, in order; a failure does not stop the
      packages after it. */
  function InstallEach(t: Toolchain, packages: seq<string>): (outcomes: seq<InstallOutcome>)
    ensures |outcomes| == |packages|
    ensures forall i :: 0 <= i < |packages| ==> outcomes[i].package == packages[i]
    ensures forall i :: 0 <= i < |packages| ==> (outcomes[i].succeeded <==> t.pipExit(packages[i]) == 0)
  {
    if packages == [] then []
    else
      var ok := InstallPackage(PipCall(t, packages[0])) == Returned(true);
      [InstallOutcome(packages[0], ok)] + InstallEach(t, packages[1..])
  }

  /** How the installer's `main` ends. */
  datatype InstallRun =
    | UvSynced
    | PipFallback(outcomes: seq<InstallOutcome>, succeeded: bool)
    | Crashed(exc: Exception)

  /** The packages pip was asked to install during a run. */
  function PipAttempts(run: InstallRun): seq<string>
  {
    match run
    case PipFallback(outcomes, _) => seq(|outcomes|, i requires 0 <= i < |outcomes| => outcomes[i].package)
    case _ => []
  }

  /** `install_minimal_deps`: every required package is attempted once, in
      list order, and the overall result is success exactly when pip succeeded
      for every one of them. */
  function InstallMinimalDeps(t: Toolchain): (r: InstallRun)
    ensures r.PipFallback?
    ensures PipAttempts(r) == RequiredPackages
    ensures forall i :: 0 <= i < |RequiredPackages| ==>
              r.outcomes[i] == InstallOutcome(RequiredPackages[i], t.pipExit(RequiredPackages[i]) == 0)
    ensures r.succeeded <==> forall p :: p in RequiredPackages ==> t.pipExit(p) == 0
  {
    var outcomes := InstallEach(t, RequiredPackages);
    PipFallback(outcomes, All(outcomes, Succeeded))
  }

  /** The installer's `main`: uv is used when it answers `--version` and
      `uv sync` succeeds; otherwise the pip fallback runs.  A uv that exists
      but cannot be started makes `check_uv_available` raise, and that
      exception ends `main`.  Because the state of uv is fixed for the run,
      `install_with_uv` is only reached when uv runs, so it never raises. */
  function InstallerMain(t: Toolchain): (run: InstallRun)
    ensures run.Crashed? <==> t.uv == UvUnrunnable
    ensures run.Crashed? ==> run.exc == OtherOSError && PipAttempts(run) == []
    ensures run.UvSynced? <==> t.uv == UvRunnable && t.uvVersionExit == 0 && t.uvSyncExit == 0
    ensures run.UvSynced? ==> PipAttempts(run) == []
    ensures run.PipFallback? ==> PipAttempts(run) == RequiredPackages
    ensures run.PipFallback? ==>
              (run.succeeded <==> forall p :: p in RequiredPackages ==> t.pipExit(p) == 0)
  {
    match CheckUvAvailable(UvCall(t, t.uvVersionExit))
    case Threw(e) => Crashed(e)
    case Returned(false) => InstallMinimalDeps(t)
    case Returned(true) =>
      match InstallWithUv(UvCall(t, t.uvSyncExit))
      case Returned(true) => UvSynced
      case Returned(false) => InstallMinimalDeps(t)
      case Threw(e) => Crashed(e)
  }

  /** An individual pip failure is visible and does not hide the others: with
      only "pydantic" failing, the other five packages are still installed and
      reported, and the fallback as a whole fails. */
  lemma OneFailureIsIsolated(t: Toolchain)
    requires t.uv != UvUnrunnable
    requires !(t.uv == UvRunnable && t.uvVersionExit == 0 && t.uvSyncExit == 0)
    requires forall p :: t.pipExit(p) == 0 <==> p != "pydantic"
    ensures InstallerMain(t) == PipFallback(
              [InstallOutcome("python-dotenv", true), InstallOutcome("click", true),
               InstallOutcome("requests", true), InstallOutcome("pydantic", false),
               InstallOutcome("atlassian-python-api", true), InstallOutcome("mcp", true)],
              false)
  {
    var run := InstallerMain(t);
    assert RequiredPackages[3] == "pydantic";
  }

  /** True when the run left every dependency installed, by either route. */
  predicate RunSucceeded(run: InstallRun)
  {
    run.UvSynced? || (run.PipFallback? && run.succeeded)
  }

  /** The installer's process exit status as written: `main` returns `None` on
      every path that does not raise, and the script calls it without
      `sys.exit`, so only an escaping exception gives status 1. */
  function InstallerExitStatusAsWritten(t: Toolchain): (code: int)
    ensures code == 0 || code == 1
    ensures code == 1 <==> t.uv == UvUnrunnable
  {
    match InstallerMain(t)
    case Crashed(_) => 1
    case _ => 0
  }

  /** The as-written status hides a failed fallback: with uv absent and pip
      failing on one package, the run fails but the process still exits 0. */
  lemma ExitStatusHidesFailure(t: Toolchain)
    requires t.uv == UvMissing
    requires t.pipExit("pydantic") == 1
    ensures !RunSucceeded(InstallerMain(t))
    ensures InstallerExitStatusAsWritten(t) == 0
  {
  }

  /** The exit status the failure message implies: 0 exactly when the
      dependencies ended up installed, 1 otherwise (including when an
      exception ends `main`). */
  function InstallerExitStatus(t: Toolchain): (code: int)
    ensures code == 0 || code == 1
    ensures code == 0 <==> (t.uv == UvRunnable && t.uvVersionExit == 0 && t.uvSyncExit == 0)
                           || (t.uv != UvUnrunnable && forall p :: p in RequiredPackages ==> t.pipExit(p) == 0)
  {
    if RunSucceeded(InstallerMain(t)) then 0 else 1
  }
}

=== FILE: pipeline.dfy ===
/** `run_tests` inside the test script's `main`, and the exit code it leads to. */
module Pipeline {
  import opened Common
  import opened Settings
  import opened Resolver
  import opened Stages

  datatype Stage = Imports | Configuration | ApiConnectivity | ServerTools

  /** The `--skip-api` and `--skip-mcp` command-line switches. */
  datatype Flags = Flags(skipApi: bool, skipMcp: bool)

  /** Everything outside the script that its stages consult, fixed for one run:
      the environment snapshot, which modules import, what each service probe
      comes to, and what the tool listing returns. */
  datatype World = World(
    env: Environment,
    importable: Module -> bool,
    probe: Service -> ProbeOutcome,
    tools: ToolListing)

  /** One stage that ran and whether it passed. */
  datatype StageRecord = StageRecord(stage: Stage, passed: bool)

  datatype RunReport = RunReport(records: seq<StageRecord>, allPassed: bool)

  /** The outcome of running one stage's check against the world. */
  function StagePasses(w: World, stage: Stage): bool
  {
    match stage
    case Imports => TestBasicImports(w.importable)
    case Configuration => TestConfiguration(CheckEnvironment(w.env))
    case ApiConnectivity => TestApiConnectivity(w.env, w.importable, w.probe).passed
    case ServerTools => TestMcpServer(w.importable, w.tools)
  }

  /** The stages a run is meant to reach, in order, once the flags have
      removed the ones to skip. */
  function Planned(flags: Flags): (stages: seq<Stage>)
    ensures |stages| >= 2 && stages[0] == Imports && stages[1] == Configuration
    ensures ApiConnectivity in stages <==> !flags.skipApi
    ensures ServerTools in stages <==> !flags.skipMcp
    ensures forall i, j :: 0 <= i < j < |stages| ==> StageRank(stages[i]) < StageRank(stages[j])
  {
    [Imports, Configuration]
      + (if flags.skipApi then [] else [ApiConnectivity])
      + (if flags.skipMcp then [] else [ServerTools])
  }

  /** Declaration position of each stage in `run_tests`. */
  function StageRank(stage: Stage): nat
  {
    match stage
    case Imports => 0
    case Configuration => 1
    case ApiConnectivity => 2
    case ServerTools => 3
  }

  /** `run_tests`, over the outcome each stage's check would have.  A failed
      import check returns `False` at once and nothing else runs.  Otherwise
      configuration, connectivity and the tool listing run in order (the last
      two unless skipped), a failure in one of them only clears the overall
      flag, and the result is the conjunction of every stage that ran. */
  function RunTests(flags: Flags, outcome: Stage -> bool): (r: RunReport)
    ensures !outcome(Imports) ==> r == RunReport([StageRecord(Imports, false)], false)
    ensures outcome(Imports) ==>
              |r.records| == |Planned(flags)|
              && forall i :: 0 <= i < |r.records| ==>
                   r.records[i] == StageRecord(Planned(flags)[i], outcome(Planned(flags)[i]))
    ensures r.allPassed <==> forall i :: 0 <= i < |r.records| ==> r.records[i].passed
  {
    if !outcome(Imports) then
      var aborted := RunReport([StageRecord(Imports, false)], false);
      assert !aborted.records[0].passed;
      aborted
    else
      var stages := Planned(flags);
      var records := seq(|stages|, i requires 0 <= i < |stages| => StageRecord(stages[i], outcome(stages[i])));
      RunReport(records, All(records, RecordPassed))
  }

  predicate RecordPassed(r: StageRecord)
  {
    r.passed
  }

  /** `sys.exit(0 if success else 1)`. */
  function ExitCode(success: bool): (code: int)
    ensures code == 0 || code == 1
    ensures code == 0 <==> success
  {
    if success then 0 else 1
  }

  /** The exit status of the test script: 0 exactly when every stage that ran
      passed, which needs the import check to pass. */
  function SimpleTestMain(flags: Flags, w: World): (code: int)
    ensures code == 0 || code == 1
    ensures code == 0 <==> StagePasses(w, Imports)
                           && forall s :: s in Planned(flags) ==> StagePasses(w, s)
  {
    var r := RunTests(flags, s => StagePasses(w, s));
    assert StagePasses(w, Imports) ==> forall s :: s in Planned(flags) ==> exists i :: 0 <= i < |r.records| && r.records[i].stage == s;
    ExitCode(r.allPassed)
  }

  /** The connectivity and tool-listing stages run after a configuration
      failure: only the import check is fatal. */
  lemma ConfigurationFailureIsNotFatal(flags: Flags, outcome: Stage -> bool)
    requires outcome(Imports) && !outcome(Configuration)
    ensures !RunTests(flags, outcome).allPassed
    ensures !flags.skipApi ==> StageRecord(ApiConnectivity, outcome(ApiConnectivity)) in RunTests(flags, outcome).records
    ensures !flags.skipMcp ==> StageRecord(ServerTools, outcome(ServerTools)) in RunTests(flags, outcome).records
  {
  }

  /** Skipping more stages can only turn a failing run into a passing one,
      never the reverse. */
  lemma SkippingIsMonotone(f1: Flags, f2: Flags, outcome: Stage -> bool)
    requires f1.skipApi ==> f2.skipApi
    requires f1.skipMcp ==> f2.skipMcp
    ensures RunTests(f1, outcome).allPassed ==> RunTests(f2, outcome).allPassed
  {
  }

  /** The exit status in terms of the individual checks: the basic imports
      must succeed, the configuration must name at least one service and give
      every named service a strategy, and each stage that is not skipped must
      pass its own check. */
  lemma ExitCodeSpec(flags: Flags, w: World)
    ensures SimpleTestMain(flags, w) == 0 <==>
              && TestBasicImports(w.importable)
              && (exists svc :: Truthy(SettingsOf(w.env, svc).url))
              && (forall svc :: Truthy(SettingsOf(w.env, svc).url) ==>
                                  FirstSatisfied(SettingsOf(w.env, svc), Precedence).Some?)
              && (!flags.skipApi ==>
                    All(ApiImports, w.importable)
                    && forall svc :: Truthy(SettingsOf(w.env, svc).url) ==> w.probe(svc).Listed?)
              && (!flags.skipMcp ==> w.importable(MainServerModule) && w.tools.Tools?)
  {
    StagewiseExitCode(flags, w);
    ConfigurationStageSpec(w.env);
    var api := TestApiConnectivity(w.env, w.importable, w.probe);
    assert StagePasses(w, ApiConnectivity) == api.passed;
    assert StagePasses(w, ServerTools) == (w.importable(MainServerModule) && w.tools.Tools?);
  }

  /** The exit status is 0 exactly when the import and configuration checks
      pass and so does each stage the flags leave in. */
  lemma StagewiseExitCode(flags: Flags, w: World)
    ensures SimpleTestMain(flags, w) == 0 <==>
              && StagePasses(w, Imports)
              && StagePasses(w, Configuration)
              && (!flags.skipApi ==> StagePasses(w, ApiConnectivity))
              && (!flags.skipMcp ==> StagePasses(w, ServerTools))
  {
  }
}

=== FILE: resolver.dfy ===
/** Credential resolution (`check_environment`) and the configuration stage
    (`test_configuration`) of the simple test script. */
module Resolver {
  import opened Common
  import opened Settings

  /** The two authentication strategies; the script stores them as the
      strings "api_token" and "personal_token". */
  datatype AuthMethod = ApiTokenAuth | PersonalTokenAuth

  /** One entry of the resolved configuration dictionary.  `username` is the
      optional "username" key, present only under the API-token strategy. */
  datatype ServiceEntry = ServiceEntry(url: string, authMethod: Option<AuthMethod>, username: Option<string>)

  type Config = map<Service, ServiceEntry>

  /** Resolves one service's settings.  No truthy URL means no entry at all;
      otherwise the entry records the URL and the first strategy, in
      precedence order, whose settings are all truthy. */
  function ResolveService(s: ServiceSettings): (r: Option<ServiceEntry>)
    ensures r.None? <==> !Truthy(s.url)
    ensures r.Some? ==> r.value.url == s.url.value && r.value.url != ""
    // API token wins whenever username and token are both set, personal token or not
    ensures r.Some? && Truthy(s.username) && Truthy(s.apiToken) ==>
              r.value.authMethod == Some(ApiTokenAuth) && r.value.username == s.username
    // the personal token is only a fallback, and then no username is kept
    ensures r.Some? && !(Truthy(s.username) && Truthy(s.apiToken)) && Truthy(s.personalToken) ==>
              r.value.authMethod == Some(PersonalTokenAuth) && r.value.username.None?
    // a present URL with no usable strategy still yields an entry
    ensures r.Some? && !(Truthy(s.username) && Truthy(s.apiToken)) && !Truthy(s.personalToken) ==>
              r.value.authMethod.None? && r.value.username.None?
  {
    if !Truthy(s.url) then None
    else if Truthy(s.username) && Truthy(s.apiToken) then
      Some(ServiceEntry(s.url.value, Some(ApiTokenAuth), s.username))
    else if Truthy(s.personalToken) then
      Some(ServiceEntry(s.url.value, Some(PersonalTokenAuth), None))
    else
      Some(ServiceEntry(s.url.value, None, None))
  }

  // ---------------------------------------------------------------------
  // An independent statement of the precedence rule: each strategy has a set
  // of required credentials, and the first satisfied strategy in a fixed
  // order is chosen.

  datatype Credential = Username | ApiToken | PersonalToken

  function RequiredCredentials(m: AuthMethod): set<Credential>
  {
    match m
    case ApiTokenAuth => {Username, ApiToken}
    case PersonalTokenAuth => {PersonalToken}
  }

  predicate Supplies(s: ServiceSettings, c: Credential)
  {
    match c
    case Username => Truthy(s.username)
    case ApiToken => Truthy(s.apiToken)
    case PersonalToken => Truthy(s.personalToken)
  }

  predicate Satisfies(s: ServiceSettings, m: AuthMethod)
  {
    forall c :: c in RequiredCredentials(m) ==> Supplies(s, c)
  }

  /** The strategies in the order the script tries them. */
  const Precedence: seq<AuthMethod> := [ApiTokenAuth, PersonalTokenAuth]

  /** `order[i]` is satisfied and no strategy before it is. */
  predicate FirstSatisfiedAt(s: ServiceSettings, order: seq<AuthMethod>, i: int)
  {
    0 <= i < |order| && Satisfies(s, order[i])
    && forall j :: 0 <= j < i ==> !Satisfies(s, order[j])
  }

  /** The first strategy of `order` that `s` satisfies, if any. */
  function FirstSatisfied(s: ServiceSettings, order: seq<AuthMethod>): (r: Option<AuthMethod>)
    ensures r.None? <==> forall i :: 0 <= i < |order| ==> !Satisfies(s, order[i])
    ensures r.Some? ==> exists i :: FirstSatisfiedAt(s, order, i) && order[i] == r.value
  {
    if order == [] then None
    else if Satisfies(s, order[0]) then Some(order[0])
    else
      var rest := FirstSatisfied(s, order[1..]);
      FirstSatisfiedPastHead(s, order, rest);
      rest
  }

  /** Passing over an unsatisfied head strategy keeps the first satisfied
      one first, one position further along. */
  lemma FirstSatisfiedPastHead(s: ServiceSettings, order: seq<AuthMethod>, rest: Option<AuthMethod>)
    requires order != [] && !Satisfies(s, order[0])
    requires rest.Some? ==> exists i :: FirstSatisfiedAt(s, order[1..], i) && order[1..][i] == rest.value
    ensures rest.Some? ==> exists i :: FirstSatisfiedAt(s, order, i) && order[i] == rest.value
  {
  }

  /** For a service with a URL, the resolved strategy is exactly the first
      satisfied one in precedence order; `None` exactly when none is. */
  lemma ResolveFollowsPrecedence(s: ServiceSettings)
    requires Truthy(s.url)
    ensures ResolveService(s).Some?
    ensures ResolveService(s).value.authMethod == FirstSatisfied(s, Precedence)
  {
    var r := FirstSatisfied(s, Precedence);
    assert Satisfies(s, ApiTokenAuth) <==> Truthy(s.username) && Truthy(s.apiToken) by {
      assert Username in RequiredCredentials(ApiTokenAuth);
      assert ApiToken in RequiredCredentials(ApiTokenAuth);
    }
    assert Satisfies(s, PersonalTokenAuth) <==> Truthy(s.personalToken) by {
      assert PersonalToken in RequiredCredentials(PersonalTokenAuth);
    }
  }

  // ---------------------------------------------------------------------

  /** `check_environment`: the services with a truthy URL, each resolved from
      its own four settings only. */
  function CheckEnvironment(env: Environment): (config: Config)
    ensures forall svc :: svc in config <==> Truthy(SettingsOf(env, svc).url)
    ensures forall svc :: svc in config ==> ResolveService(SettingsOf(env, svc)) == Some(config[svc])
  {
    var jira := ResolveService(env.jira);
    var confluence := ResolveService(env.confluence);
    (if jira.Some? then map[Jira := jira.value] else map[])
      + (if confluence.Some? then map[Confluence := confluence.value] else map[])
  }

  /** One service's entry depends on that service's settings and nothing else:
      changing the other service's variables cannot add, remove or alter it. */
  lemma ResolvedIndependently(e1: Environment, e2: Environment, svc: Service)
    requires SettingsOf(e1, svc) == SettingsOf(e2, svc)
    ensures svc in CheckEnvironment(e1) <==> svc in CheckEnvironment(e2)
    ensures svc in CheckEnvironment(e1) ==> CheckEnvironment(e1)[svc] == CheckEnvironment(e2)[svc]
  {
  }

  /** True when the service has no entry, or its entry has an authentication method. */
  predicate HasAuth(config: Config, svc: Service)
  {
    svc !in config || config[svc].authMethod.Some?
  }

  /** Walking the check order finds an authentication method for every
      service exactly when every entry of the configuration has one. */
  lemma AllHaveAuth(config: Config)
    ensures All(ServiceOrder, svc => HasAuth(config, svc)) <==>
            forall svc :: svc in config ==> config[svc].authMethod.Some?
  {
    ServiceOrderComplete();
    if All(ServiceOrder, svc => HasAuth(config, svc)) {
      forall svc | svc in config ensures config[svc].authMethod.Some? {
        assert svc in ServiceOrder;
        assert HasAuth(config, svc);
      }
    }
  }

  /** `test_configuration`: fails on an empty configuration, and otherwise
      fails exactly when some present service has no authentication method. */
  function TestConfiguration(config: Config): (ok: bool)
    ensures ok <==> config != map[] && forall svc :: svc in config ==> config[svc].authMethod.Some?
  {
    AllHaveAuth(config);
    config != map[] && All(ServiceOrder, svc => HasAuth(config, svc))
  }

  /** The configuration stage as a whole passes exactly when at least one
      service has a URL and every service with a URL satisfies some strategy. */
  lemma ConfigurationStageSpec(env: Environment)
    ensures TestConfiguration(CheckEnvironment(env)) <==>
              (exists svc :: Truthy(SettingsOf(env, svc).url))
              && forall svc :: Truthy(SettingsOf(env, svc).url) ==>
                                 FirstSatisfied(SettingsOf(env, svc), Precedence).Some?
  {
    var config := CheckEnvironment(env);
    forall svc | Truthy(SettingsOf(env, svc).url)
      ensures config[svc].authMethod == FirstSatisfied(SettingsOf(env, svc), Precedence)
    {
      ResolveFollowsPrecedence(SettingsOf(env, svc));
    }
    if config == map[] {
      assert forall svc :: !Truthy(SettingsOf(env, svc).url) by {
        forall svc ensures !Truthy(SettingsOf(env, svc).url) {
          assert svc !in config;
        }
      }
    } else {
      var svc :| svc in config;
      assert Truthy(SettingsOf(env, svc).url);
    }
  }
}

=== FILE: settings.dfy ===
/** The environment snapshot the test script reads: four optional settings
    for each of the two services, captured once before anything runs. */
module Settings {
  import opened Common

  /** The two services the script knows about, in the order it checks them. */
  datatype Service = Jira | Confluence

  const ServiceOrder: seq<Service> := [Jira, Confluence]

  /** `{SERVICE}_URL`, `{SERVICE}_USERNAME`, `{SERVICE}_API_TOKEN` and
      `{SERVICE}_PERSONAL_TOKEN`; `None` is an unset variable. */
  datatype ServiceSettings = ServiceSettings(
    url: Option<string>,
    username: Option<string>,
    apiToken: Option<string>,
    personalToken: Option<string>)

  datatype Environment = Environment(jira: ServiceSettings, confluence: ServiceSettings)

  function SettingsOf(env: Environment, svc: Service): ServiceSettings
  {
    match svc
    case Jira => env.jira
    case Confluence => env.confluence
  }

  /** Python truthiness of an `os.getenv` result: unset and empty are both false. */
  predicate Truthy(v: Option<string>)
  {
    v.Some? && v.value != ""
  }

  /** The check order visits every service exactly once. */
  lemma ServiceOrderComplete()
    ensures forall svc: Service :: svc in ServiceOrder
  {
    forall svc: Service ensures svc in ServiceOrder {
      match svc
      case Jira => assert ServiceOrder[0] == Jira;
      case Confluence => assert ServiceOrder[1] == Confluence;
    }
  }
}

=== FILE: stages.dfy ===
/** The three stage checks of the test script besides configuration: the
    import check, API connectivity and the server tool listing.  Imports,
    service calls and the tool listing are oracles supplied by the caller. */
module Stages {
  import opened Common
  import opened Settings

  /** The modules the script imports from the server package. */
  datatype Module =
    | JiraConfigModule | ConfluenceConfigModule | MainServerModule
    | JiraFetcherModule | ConfluenceFetcherModule

  /** Imported by `test_basic_imports`, in this order. */
  const BasicImports: seq<Module> := [JiraConfigModule, ConfluenceConfigModule, MainServerModule]

  /** Imported at the top of `test_api_connectivity`; note the two fetcher
      modules are not among the basic imports. */
  const ApiImports: seq<Module> := [JiraConfigModule, JiraFetcherModule, ConfluenceConfigModule, ConfluenceFetcherModule]

  /** `test_basic_imports`: the first import that fails ends the check with
      `False`; it passes exactly when every basic module imports. */
  function TestBasicImports(importable: Module -> bool): (ok: bool)
    ensures ok <==> importable(JiraConfigModule) && importable(ConfluenceConfigModule) && importable(MainServerModule)
  {
    var ok := All(BasicImports, importable);
    assert BasicImports[0] == JiraConfigModule && BasicImports[1] == ConfluenceConfigModule
           && BasicImports[2] == MainServerModule;
    ok
  }

  /** What one service probe can come to: the listing call returned (with how
      many projects or spaces it found), the service client reported that
      authentication is not configured, or some call raised. */
  datatype ProbeOutcome = Listed(count: nat) | AuthNotConfigured | Raised(message: string)

  datatype ServiceCheck = ServiceCheck(service: Service, outcome: ProbeOutcome)

  datatype ConnectivityReport = ConnectivityReport(checks: seq<ServiceCheck>, passed: bool)

  /** Probes, in order, each service of `svcs` whose URL variable is truthy;
      services without a URL are passed over and never probed. */
  function ProbeServices(env: Environment, svcs: seq<Service>, probe: Service -> ProbeOutcome): (checks: seq<ServiceCheck>)
    ensures |checks| <= |svcs|
    ensures forall k :: 0 <= k < |checks| ==>
              checks[k].service in svcs && Truthy(SettingsOf(env, checks[k].service).url)
              && checks[k].outcome == probe(checks[k].service)
    ensures forall i :: 0 <= i < |svcs| && Truthy(SettingsOf(env, svcs[i]).url) ==>
              ServiceCheck(svcs[i], probe(svcs[i])) in checks
  {
    if svcs == [] then []
    else
      var rest := ProbeServices(env, svcs[1..], probe);
      assert forall i :: 1 <= i < |svcs| ==> svcs[i] == svcs[1..][i - 1];
      if Truthy(SettingsOf(env, svcs[0]).url) then
        [ServiceCheck(svcs[0], probe(svcs[0]))] + rest
      else
        rest
  }

  predicate CheckPassed(c: ServiceCheck)
  {
    c.outcome.Listed?
  }

  /** `test_api_connectivity`: if the client modules fail to import nothing is
      probed and the stage fails; otherwise every service with a URL is probed
      independently of the others, and the stage passes exactly when every
      probe listed successfully. */
  function TestApiConnectivity(env: Environment, importable: Module -> bool, probe: Service -> ProbeOutcome): (r: ConnectivityReport)
    ensures !All(ApiImports, importable) ==> r.checks == [] && !r.passed
    ensures All(ApiImports, importable) ==>
              forall svc :: Truthy(SettingsOf(env, svc).url) <==> ServiceCheck(svc, probe(svc)) in r.checks
    ensures forall k :: 0 <= k < |r.checks| ==> r.checks[k].outcome == probe(r.checks[k].service)
    // each service is probed at most once, Jira before Confluence
    ensures All(ApiImports, importable) ==>
              r.checks == (if Truthy(env.jira.url) then [ServiceCheck(Jira, probe(Jira))] else [])
                          + (if Truthy(env.confluence.url) then [ServiceCheck(Confluence, probe(Confluence))] else [])
    ensures r.passed <==> All(ApiImports, importable)
                          && forall svc :: Truthy(SettingsOf(env, svc).url) ==> probe(svc).Listed?
  {
    if !All(ApiImports, importable) then ConnectivityReport([], false)
    else
      var checks := ProbeServices(env, ServiceOrder, probe);
      ProbeTwoServices(env, probe);
      TwoServiceChecks(env, probe, checks);
      ConnectivityReport(checks, All(checks, CheckPassed))
  }

  /** What the two-service check list says: a service appears exactly when
      its URL is set, and the list passes exactly when every such service
      listed successfully. */
  lemma TwoServiceChecks(env: Environment, probe: Service -> ProbeOutcome, checks: seq<ServiceCheck>)
    requires checks == (if Truthy(env.jira.url) then [ServiceCheck(Jira, probe(Jira))] else [])
                       + (if Truthy(env.confluence.url) then [ServiceCheck(Confluence, probe(Confluence))] else [])
    ensures forall svc :: Truthy(SettingsOf(env, svc).url) <==> ServiceCheck(svc, probe(svc)) in checks
    ensures All(checks, CheckPassed) <==> forall svc :: Truthy(SettingsOf(env, svc).url) ==> probe(svc).Listed?
  {
    assert forall svc :: SettingsOf(env, svc) == env.jira || SettingsOf(env, svc) == env.confluence;
    assert All(checks, CheckPassed) <==> forall c :: c in checks ==> CheckPassed(c);
  }

  /** Over the script's two services the probes are exactly Jira's, when its
      URL is set, followed by Confluence's, when its URL is set. */
  lemma ProbeTwoServices(env: Environment, probe: Service -> ProbeOutcome)
    ensures ProbeServices(env, ServiceOrder, probe)
              == (if Truthy(env.jira.url) then [ServiceCheck(Jira, probe(Jira))] else [])
                 + (if Truthy(env.confluence.url) then [ServiceCheck(Confluence, probe(Confluence))] else [])
  {
    assert ServiceOrder[1..] == [Confluence];
    assert ServiceOrder[1..][1..] == [];
  }

  /** The result of `main_mcp.get_tools()`: a tool mapping, or an exception. */
  datatype ToolListing = Tools(names: seq<string>) | ListingRaised(message: string)

  /** `test_mcp_server`: the server module import and the tool listing both
      sit inside one `try`, so either failing fails the stage. */
  function TestMcpServer(importable: Module -> bool, listing: ToolListing): (ok: bool)
    ensures listing.ListingRaised? ==> !ok
    ensures !importable(MainServerModule) ==> !ok
    ensures importable(MainServerModule) && listing.Tools? ==> ok
  {
    importable(MainServerModule) && listing.Tools?
  }
}
